=== FILE: README.md ===
# OneDrive client decision logic, modelled in Dafny

This project models the decision logic of a small Go client for the legacy
OneDrive (SkyDrive v5.0) REST API, `onedrive.go`. The client refreshes an
OAuth2 access token when it has expired. It resolves slash paths to node ids
by walking folder listings. It also shapes the download and upload requests.
Everything else in the client passes straight through to an HTTP helper
library.

The model is functional. Every remote exchange is a parameter:

- the node lookup behind `NodeInfo`;
- the child listing behind `NodeFiles`;
- the token endpoint's answer;
- the content response and the upload response.

The two clock readings in `ValidToken` are integer seconds passed in as
arguments.

Modules:

- `Base`: `Option`, `Result`, the node info `Node` shared by lookup, listing and download, and the client's error taxonomy.
- `GoPath`: Go's `path.Clean` and `path.Split`, as used by `pathParts`.
  `Clean` follows Go's documented lexical rules:
  - split the path into slash-separated fields;
  - drop empty and `.` fields;
  - let `..` cancel the name before it, or drop it at the start of a rooted path;
  - join the names again.
- `PathSegments`: `pathParts`. The method `PathParts` keeps the Go structure:
  - a loop that peels names off the end with `Split` and cleans the remaining
    directory;
  - an in-place swap loop over an array that reverses the collected names.

  `Segments` is the independent reference definition (the names kept by
  cleaning), and the method is proved equal to it.
- `Resolver`: `ResolvePath` as a walk over the names, with ASCII case-folding
  and first-match selection among a folder's children. `Follows` is the
  specification: a chain of ids, each the first case-insensitive match of the
  next name. The walk is proved to be sound and complete against it.
- `Auth`: `OneDriveAuth.ValidToken` (the expiry gate and the state update) and
  `AuthenticationHeader`.
- `Transfer`: the choices `Download`, `UploadOverwrite` and `Upload` make:
  - the `Range` header, proved to read back as the requested span;
  - the `overwrite` parameter;
  - the expected statuses;
  - the "cannot download" error for a node without a source URL.

Two details of `Download` in `onedrive.go` are easy to miss:

- The content GET to the node's source URL carries no Authorization header.
  Its only header is `Range`, set only when a span is given
  (onedrive.go:151-160).
- It always expects status 200 or 206, whether or not a range was asked for
  (onedrive.go:154).

## Model

| member | source | states |
|---|---|---|
| GoPath.Split | onedrive.go:249 | `dir + file` is the whole path, `file` has no slash, `dir` is empty or ends in a slash, and `dir` is non-empty when the path has a slash |
| GoPath.SplitRooted | onedrive.go:249 | splitting a cleaned rooted path yields the parent's spelling plus a trailing slash, and the last name |
| GoPath.Clean | onedrive.go:245-250 | a rooted path cleans to a path that starts with "/"; `GoPath.CleanRooted` and `PathSegments.CleanIdempotent` show that cleaning is a fixed point on its own rooted output |
| GoPath.CleanRootedSlash | onedrive.go:250 | cleaning the directory half left by `Split` gives back exactly the parent path |
| GoPath.CleanRooted | onedrive.go:245 | a cleaned rooted path is a fixed point of `Clean` |
| GoPath.JoinOfFields | onedrive.go:245 | joining the slash-separated fields of any string with "/" restores the string |
| GoPath.FieldsOfJoin | onedrive.go:245 | splitting the join of slash-free names gives back the names |
| PathSegments.CollectLeafFirst | onedrive.go:245-252 | the peeling loop collects the cleaned path's names in exactly leaf-to-root order |
| PathSegments.ReverseInPlace | onedrive.go:254-262 | the swap loop puts element `len-1-k` at position `k` for every `k`, giving the exact reverse |
| PathSegments.PathParts | onedrive.go:244-264 | the result is the cleaned path's names root to leaf; each is non-empty, slash-free and neither `.` nor `..`; "/" followed by them joined with "/" is the cleaned path; the result is empty exactly when the path cleans to "/" |
| PathSegments.CleanIdempotent | onedrive.go:245 | cleaning the cleaned path again changes nothing |
| PathSegments.NoSegmentsIffRoot | onedrive.go:245-247 | a path has no names exactly when it cleans to "/" |
| PathSegments.EmptyAndRootHaveNoSegments | onedrive.go:245-247 | "" and "/" have no names |
| PathSegments.ClimbBackHasNoSegments | onedrive.go:245-247 | "/a/.." has no names |
| PathSegments.SegmentsIdempotent | onedrive.go:245 | decomposing "/" followed by the names joined with "/" gives the same names; so does decomposing the join without the leading slash |
| PathSegments.SameCleanSameSegments | onedrive.go:245 | two paths have the same names if and only if they have the same cleaned form |
| Resolver.Lower | onedrive.go:232-234 | lower-casing keeps the length, leaves no ASCII upper-case letter, and changes only upper-case letters, each to its lower-case partner |
| Resolver.FirstMatch | onedrive.go:232-238 | the index found is a child with the same name up to case and no earlier child has that name; no index is found exactly when no child has that name |
| Resolver.FirstMatchIgnoresLater | onedrive.go:233-236 | children after the first match never change which child is chosen |
| Resolver.Walk | onedrive.go:225-241 | no names gives the start id with nothing listed. Otherwise the first listed id is the start. On success there is one listing per name and the listed ids plus the result form a chain where each name leads to its first match. On failure the listings up to the failing one form that chain. A failed listing returns that listing's error and keeps the current id. A name with no match returns `NotFound` naming it and the id "". |
| Resolver.WalkFollowsChain | onedrive.go:225-241 | whenever the names lead through a chain of ids, the walk succeeds, lists exactly the chain's ids but the last, and returns the last |
| Resolver.WalkStopsAtMiss | onedrive.go:239 | when the names lead up to a node whose listing has no match for the next name, the walk returns "" and `NotFound` naming that name, and lists nothing beyond that node |
| Resolver.ResolvePath | onedrive.go:218-242 | a failed root lookup returns id "", that error and no listings. There are never more listings than path names, and the first listing is of the root. On success there is one listing per name; the root, the listed ids and the result form the chain the path's names lead through, and a path without names resolves to the root's id. A failure after listings is either `NotFound` naming the name at that depth or the last listing's own error. Once the root is found, the outcome is exactly what `Walk` promises over the path's names: a failed listing returns that listing's error and keeps the current id, and `NotFound` comes only from a listing with no matching child and returns the id "" |
| Resolver.ResolveRootPath | onedrive.go:223-226 | a path that cleans to "/" resolves to the root id with no listing, and lists nothing even when the root lookup fails |
| Resolver.ResolveCanonical | onedrive.go:226 | paths with the same cleaned form resolve identically, listings included |
| Resolver.CaseInsensitiveExample | onedrive.go:232-234 | "Docs" matches "docs" and "Summer.JPG" matches "summer.jpg"; "Docs" does not match "Doc" |
| Resolver.PhotoWalk | onedrive.go:225-241 | walking the names `Photos`, `2020`, `summer.jpg` from the root of a three-level tree lists the root, `Photos` and `2020` and returns the id of `Summer.JPG` |
| Auth.RefreshForm | onedrive.go:34-39 | the refresh form has exactly the five fields, with grant type `refresh_token` and the stored client id, secret, redirect URI and refresh token |
| Auth.Expired | onedrive.go:33 | the token counts as fresh exactly up to and including its expiry second; it is expired only at a strictly later second |
| Auth.ValidToken | onedrive.go:32-68 | see the bullets after this table |
| Auth.AuthenticationHeader | onedrive.go:77-87 | a token error passes through; otherwise the header value is "Bearer " followed by exactly the token |
| Auth.FreshTokenIgnoresExchange | onedrive.go:33 | while the token is fresh, the outcome does not depend on the exchange or the second clock at all |
| Auth.RefreshedTokenIsReused | onedrive.go:63-66 | after a successful refresh, a later call within the new lifetime returns the new token without an exchange |
| Auth.FailedRefreshIsRetried | onedrive.go:44-61 | after a failed refresh, a later call sends the identical refresh request again |
| Transfer.DecimalCanonical | onedrive.go:159 | the only string that reads as a number is its `%d` spelling: no leading zero, no "-0" |
| Transfer.DecimalRoundTrip | onedrive.go:159 | parsing the `%d` spelling of any integer gives it back |
| Transfer.RangeHeader | onedrive.go:159 | the value starts with "bytes=" and only digits and `-` follow |
| Transfer.RangeSpelling | onedrive.go:159 | a header value reads as a span exactly when it is the `bytes=%d-%d` spelling of that span |
| Transfer.NonCanonicalRejected | onedrive.go:159 | "bytes=05-99" and "bytes=-0-5", which `%d` never writes, read as no span |
| Transfer.RangeRoundTrip | onedrive.go:159 | the `bytes=start-end` header parses back to exactly its span, negative bounds included |
| Transfer.FirstHundredBytes | onedrive.go:159 | the span 0..99 gives the header `bytes=0-99` |
| Transfer.RangeFor | onedrive.go:157-160 | a `Range` header exists exactly when a span is given, and it reads back as that span; since only the exact `bytes=%d-%d` spelling reads as a span (`Transfer.RangeSpelling`), the value is that spelling |
| Transfer.Download | onedrive.go:139-171 | see the bullets after this table |
| Transfer.OverwriteParam | onedrive.go:187-191 | the parameter is "true" exactly when overwriting is asked for, and "ChooseNewName" otherwise |
| Transfer.UploadOverwrite | onedrive.go:179-216 | an authentication error returns that error and issues no request. Otherwise it issues a PUT to `/dirId/files/name` with the single parameter `overwrite`, equal to "true" when overwriting and "ChooseNewName" otherwise, the bearer header, and expected statuses 200 and 201; the result is the service's reported name or the request's error |
| Transfer.Upload | onedrive.go:173-177 | a request is issued exactly when authentication succeeds; it is the PUT to `/dirId/files/name` with the single parameter `overwrite` equal to "true", the bearer header and expected statuses 200 and 201; it succeeds exactly when authentication and the request succeed, and surfaces the first error otherwise |
| Transfer.UploadOverwrites | onedrive.go:173-191 | `Upload` sends exactly the request `UploadOverwrite` sends with overwriting on, and fails exactly when that call fails; the other policy's request differs only in `overwrite` being "ChooseNewName" |

`Auth.ValidToken` states:

- A refresh request is issued exactly when `now` is past the stored expiry.
  The request goes to the token endpoint with the refresh form.
- Only the access token and the expiry can change.
- While the token is fresh, the stored token is returned and nothing changes.
- A failed refresh leaves the credentials unchanged and returns "" with the
  error. The error is:
  - the transport error;
  - `RefreshRejected` with the status code and text, for a status other than 200;
  - the read error;
  - or the decode error.
- A successful refresh returns the new token and sets the expiry to the second
  clock reading plus `expires_in`.

`Transfer.Download` states:

- A content request is issued exactly when the lookup succeeded and the node
  has a source URL.
- A lookup error passes through.
- An empty source gives `CannotDownload(id)`.
- The request goes to the node's source URL and accepts statuses 200 and 206.
- It carries a `Range` header exactly when a span is given, and the header
  parses back to that span. Only the exact `bytes=%d-%d` spelling parses
  back to a span (`Transfer.RangeSpelling`), so this fixes the header value.
- On success the result is the node info with only `size` replaced, by the
  response length.

## Left out

- HTTP transport, JSON encoding and decoding, and the helper library's
  `RequestData` (onedrive.go:89-137 and the request parts of
  onedrive.go:139-216). `NodeInfo`, `NodeFiles`, the content GET, the upload
  PUT and the token POST are parameters of the model.
- `NewOneDriveClient` (onedrive.go:70-75) only builds two HTTP clients and a
  base URL. It has no decision in it.
- `time.Now()` and `http.PostForm`. They are replaced by integer clock
  arguments and an exchange value.
- Auth.ValidToken: time is whole Unix seconds. `time.Duration(ExpiresIn) *
  time.Second` overflowing `int64` nanoseconds (lifetimes over about 292 years)
  is not modelled.
- Auth.ValidToken: the unsynchronised check-then-write race between concurrent
  callers cannot be expressed in a sequential model.
- Resolver.ResolvePath: every `NodeFiles` call in the Go code asks
  `ValidToken` again, which may refresh the token. The model folds
  authentication into the listing oracle and does not thread the credential
  state through a walk.
- Resolver.Lower: only ASCII letters are folded. Go's `strings.ToLower`
  applies full Unicode case mapping.
- Base.Node: only id, name, source and size are modelled. The rest of
  `NodeInfo`'s fields are not part of this model.
- Transfer.Download: the response stream and closing it are not modelled. Only
  the content length survives. On every error path Go also returns a node
  info: whatever the lookup produced when the lookup fails (onedrive.go:140-142),
  and the full decoded info beside `CannotDownload` (onedrive.go:145-148) and
  beside a content-request error (onedrive.go:162-164), with `Size` still the
  metadata value. The model returns only the error.
- Transfer.Span: `ioutils.FileSpan` holds `int64` bounds. The model uses
  unbounded integers; `%d` spells both the same way within `int64`.
- Transfer.UploadOverwrite: the request path is plain concatenation of the
  directory id and the name. Any escaping the HTTP helper performs is not part
  of this model.
- GoPath.Clean is modelled by Go's documented lexical rules, not by its
  character-buffer implementation. The Go standard library is not part of
  this model's sources.

=== FILE: auth.dfy ===
/** `OneDriveAuth.ValidToken` and `AuthenticationHeader` (onedrive.go): the
    expiry gate in front of every API call.  Time is in Unix seconds; the
    two clock readings of the Go code (the expiry check and the new expiry)
    are parameters, and the refresh exchange with the token endpoint is an
    oracle value. */
module Auth {
  import opened Base

  /** `OneDriveAuth`: the client registration and the current grant. */
  datatype Credentials = Credentials(
    clientId: string,
    clientSecret: string,
    redirectUri: string,
    accessToken: string,
    refreshToken: string,
    expiresAt: int)

  const TokenEndpoint: string := "https://login.live.com/oauth20_token.srf"

  /** The form POSTed to the token endpoint. */
  datatype RefreshRequest = RefreshRequest(url: string, form: map<string, string>)

  /** What reading and decoding the token endpoint's body produced. */
  datatype RefreshBody =
    | Unreadable(readError: Error)
    | Undecodable(decodeError: Error)
    | Decoded(accessToken: string, expiresIn: int)

  /** The answer of the refresh exchange: a transport failure, or a status
      line and a body. */
  datatype Exchange =
    | ExchangeFailed(error: Error)
    | Answered(status: int, statusText: string, body: RefreshBody)

  /** What `ValidToken` returns, the credentials after the call, and the
      refresh request it issued, if any. */
  datatype Grant = Grant(token: string, err: Option<Error>, creds: Credentials, request: Option<RefreshRequest>)

  /** The stored token is past its expiry at second `now`.  The comparison
      is strict: during the expiry second itself the token is still used. */
  function Expired(c: Credentials, now: int): (b: bool)
    ensures !b <==> now <= c.expiresAt
  {
    now > c.expiresAt
  }

  /** The refresh-token grant built from the stored credentials. */
  function RefreshForm(c: Credentials): (form: map<string, string>)
    ensures form.Keys == {"grant_type", "client_id", "client_secret", "redirect_uri", "refresh_token"}
    ensures form["grant_type"] == "refresh_token" && form["refresh_token"] == c.refreshToken
    ensures form["client_id"] == c.clientId && form["client_secret"] == c.clientSecret
    ensures form["redirect_uri"] == c.redirectUri
  {
    map["grant_type" := "refresh_token",
        "client_id" := c.clientId,
        "client_secret" := c.clientSecret,
        "redirect_uri" := c.redirectUri,
        "refresh_token" := c.refreshToken]
  }

  /** The exchange gave a fresh token. */
  predicate Succeeded(x: Exchange)
  {
    x.Answered? && x.status == 200 && x.body.Decoded?
  }

  /** The error a failed exchange surfaces. */
  function ExchangeError(x: Exchange): (err: Error)
    requires !Succeeded(x)
  {
    match x
    case ExchangeFailed(e) => e
    case Answered(status, text, body) =>
      if status != 200 then RefreshRejected(status, text)
      else if body.Unreadable? then body.readError
      else body.decodeError
  }

  /** `ValidToken` at second `now`; `refreshedAt` is the clock reading taken
      after a successful exchange. */
  function ValidToken(c: Credentials, now: int, exchange: Exchange, refreshedAt: int): (r: Grant)
    ensures r.request.Some? <==> Expired(c, now)
    ensures r.request.Some? ==> r.request.value.url == TokenEndpoint && r.request.value.form == RefreshForm(c)
    ensures r.creds.(accessToken := c.accessToken, expiresAt := c.expiresAt) == c
    ensures r.err.None? ==> r.token == r.creds.accessToken
    ensures r.err.Some? ==> r.token == "" && r.creds == c
    ensures !Expired(c, now) ==> r.token == c.accessToken && r.err.None? && r.creds == c
    ensures Expired(c, now) && !Succeeded(exchange) ==> r.err == Some(ExchangeError(exchange))
    ensures Expired(c, now) && Succeeded(exchange) ==>
      && r.err.None?
      && r.token == exchange.body.accessToken
      && r.creds.expiresAt == refreshedAt + exchange.body.expiresIn
  {
    if now > c.expiresAt then
      var request := Some(RefreshRequest(TokenEndpoint, RefreshForm(c)));
      match exchange
      case ExchangeFailed(e) => Grant("", Some(e), c, request)
      case Answered(status, text, body) =>
        if status != 200 then Grant("", Some(RefreshRejected(status, text)), c, request)
        else match body
          case Unreadable(e) => Grant("", Some(e), c, request)
          case Undecodable(e) => Grant("", Some(e), c, request)
          case Decoded(token, expiresIn) =>
            var c' := c.(accessToken := token, expiresAt := refreshedAt + expiresIn);
            Grant(c'.accessToken, None, c', request)
    else Grant(c.accessToken, None, c, None)
  }

  /** The bearer value for the Authorization header, or the token error. */
  function AuthenticationHeader(g: Grant): (r: Result<string>)
    ensures r.Err? <==> g.err.Some?
    ensures r.Err? ==> r.error == g.err.value
    ensures r.Ok? ==> |r.value| >= 7 && r.value[..7] == "Bearer " && r.value[7..] == g.token
  {
    match g.err
    case Some(e) => Err(e)
    case None => Ok("Bearer " + g.token)
  }

  // ---------------------------------------------------------------------
  // Two-call properties

  /** While the token is fresh the exchange is never consulted: any two
      exchanges and clocks give the same answer. */
  lemma FreshTokenIgnoresExchange(c: Credentials, now: int, x1: Exchange, t1: int, x2: Exchange, t2: int)
    requires !Expired(c, now)
    ensures ValidToken(c, now, x1, t1) == ValidToken(c, now, x2, t2)
  {
  }

  /** After a successful refresh, a later call within the new lifetime
      returns the new token without another exchange. */
  lemma RefreshedTokenIsReused(c: Credentials, now: int, x: Exchange, t: int, later: int, x2: Exchange, t2: int)
    requires Expired(c, now) && Succeeded(x)
    requires later <= t + x.body.expiresIn
    ensures var first := ValidToken(c, now, x, t);
      var second := ValidToken(first.creds, later, x2, t2);
      && second.request.None?
      && second.token == x.body.accessToken
      && second.creds == first.creds
  {
  }

  /** A failed refresh leaves the credentials as they were, so any later
      call tries the identical exchange again. */
  lemma FailedRefreshIsRetried(c: Credentials, now: int, x: Exchange, t: int, later: int, x2: Exchange, t2: int)
    requires Expired(c, now) && !Succeeded(x)
    requires later >= now
    ensures var first := ValidToken(c, now, x, t);
      var second := ValidToken(first.creds, later, x2, t2);
      && first.err.Some?
      && second.request == first.request
  {
  }
}

=== FILE: base.dfy ===
/** Failure-carrying values shared by the whole client model. */
module Base {

  /** A value that may be absent. */
  datatype Option<+T> = None | Some(value: T)

  /** The outcome of one call: a value, or the error the call surfaced. */
  datatype Result<+T> = Ok(value: T) | Err(error: Error)

  /** The part of `NodeInfo` the client's decisions read, shared by the node
      lookup, the child listing and `Download`.  `size` is the field
      `Download` overwrites with the transferred length. */
  datatype Node = Node(id: string, name: string, source: string, size: int)

  /** The client's error taxonomy.  Errors raised inside the HTTP helper
      library are opaque here and arrive through the oracles as `Transport`. */
  datatype Error =
    | Transport(message: string)               // network failure or a status the HTTP helper rejected
    | RefreshRejected(code: int, status: string) // token endpoint answered with a status other than 200
    | BodyUnreadable(message: string)          // reading the token response body failed
    | Malformed(message: string)               // the token response body is not the expected JSON
    | CannotDownload(id: string)               // the node has no source URL
    | NotFound(segment: string)                // no child matches a path segment
}

=== FILE: gopath.dfy ===
/** Go's `path` package as far as the client uses it: `path.Clean` and
    `path.Split`, purely lexical operations on slash-separated paths.
    `Clean` follows Go's documented rules: collapse repeated slashes, drop
    `.` elements, let `..` cancel the element before it, drop `..` at the
    start of a rooted path, and keep leading `..` of a relative path. */
module GoPath {

  /** The slash-separated fields of `s`, empty ones included, in the manner
      of `strings.Split(s, "/")`. */
  function Fields(s: string): (r: seq<string>)
    ensures |r| >= 1
    ensures forall i :: 0 <= i < |r| ==> '/' !in r[i]
    ensures '/' !in s ==> r == [s]
  {
    if |s| == 0 then [""]
    else
      var rest := Fields(s[1..]);
      if s[0] == '/' then [""] + rest
      else
        assert '/' !in s ==> s == [s[0]] + s[1..] && '/' !in s[1..];
        [[s[0]] + rest[0]] + rest[1..]
  }

  /** `strings.Join(segs, "/")`. */
  function Join(segs: seq<string>): (s: string)
  {
    if |segs| == 0 then ""
    else if |segs| == 1 then segs[0]
    else segs[0] + "/" + Join(segs[1..])
  }

  /** A name that can appear in a cleaned path. */
  predicate ValidSegment(s: string)
  {
    s != "" && s != "." && s != ".." && '/' !in s
  }

  predicate AllValid(segs: seq<string>)
  {
    forall i :: 0 <= i < |segs| ==> ValidSegment(segs[i])
  }

  /** The effect of one field on the stack of kept names. */
  function Step(kept: seq<string>, field: string, rooted: bool): (r: seq<string>)
  {
    if field == "" || field == "." then kept
    else if field == ".." then
      if |kept| > 0 && kept[|kept| - 1] != ".." then kept[..|kept| - 1]
      else if rooted then kept
      else kept + [".."]
    else kept + [field]
  }

  /** Applies `Step` to every field, left to right. */
  function Reduce(fields: seq<string>, rooted: bool, kept: seq<string>): (r: seq<string>)
    decreases |fields|
  {
    if |fields| == 0 then kept
    else Reduce(fields[1..], rooted, Step(kept, fields[0], rooted))
  }

  /** `path.Clean`: the shortest lexically equivalent path. */
  function Clean(p: string): (r: string)
    ensures p != "" && p[0] == '/' ==> |r| > 0 && r[0] == '/'
  {
    if p == "" then "."
    else
      var rooted := p[0] == '/';
      var kept := Reduce(Fields(p), rooted, []);
      if rooted then "/" + Join(kept)
      else if kept == [] then "."
      else Join(kept)
  }

  /** `strings.LastIndex(s, "/")`: the last slash of `s`, or -1. */
  function LastSlash(s: string): (r: int)
    ensures -1 <= r < |s|
    ensures r >= 0 ==> s[r] == '/'
    ensures forall k :: r < k < |s| ==> s[k] != '/'
  {
    if |s| == 0 then -1
    else if s[|s| - 1] == '/' then |s| - 1
    else LastSlash(s[..|s| - 1])
  }

  /** `path.Split`: `dir` is everything up to and including the last slash,
      `file` is the rest. */
  function Split(p: string): (r: (string, string))
    ensures r.0 + r.1 == p
    ensures '/' !in r.1
    ensures r.0 == "" || r.0[|r.0| - 1] == '/'
    ensures '/' in p ==> r.0 != ""
  {
    var i := LastSlash(p);
    (p[..i + 1], p[i + 1..])
  }

  /** A rooted cleaned path spelled from its names. */
  function Rooted(segs: seq<string>): (p: string)
  {
    "/" + Join(segs)
  }

  // ---------------------------------------------------------------------
  // Fields and Join

  lemma {:induction false} JoinSnoc(init: seq<string>, x: string)
    requires |init| >= 1
    ensures Join(init + [x]) == Join(init) + "/" + x
    decreases |init|
  {
    if |init| == 1 {
      assert init + [x] == [init[0], x];
      assert [init[0], x][1..] == [x];
    } else {
      assert (init + [x])[1..] == init[1..] + [x];
      JoinSnoc(init[1..], x);
    }
  }

  lemma {:induction false} FieldsConcat(a: string, b: string)
    ensures Fields(a + "/" + b) == Fields(a) + Fields(b)
    decreases |a|
  {
    if |a| == 0 {
      assert a + "/" + b == "/" + b;
      assert ("/" + b)[1..] == b;
    } else {
      assert (a + "/" + b)[1..] == a[1..] + "/" + b;
      FieldsConcat(a[1..], b);
    }
  }

  /** `Fields` undoes `Join` on names without slashes. */
  lemma {:induction false} FieldsOfJoin(segs: seq<string>)
    requires |segs| >= 1
    requires forall i :: 0 <= i < |segs| ==> '/' !in segs[i]
    ensures Fields(Join(segs)) == segs
    decreases |segs|
  {
    if |segs| > 1 {
      FieldsOfJoin(segs[1..]);
      FieldsConcat(segs[0], Join(segs[1..]));
      assert segs == [segs[0]] + segs[1..];
    }
  }

  /** `Join` undoes `Fields`: splitting on slashes loses nothing. */
  lemma {:induction false} JoinOfFields(s: string)
    ensures Join(Fields(s)) == s
    decreases |s|
  {
    if |s| > 0 {
      JoinOfFields(s[1..]);
      var rest := Fields(s[1..]);
      if s[0] == '/' {
        assert Fields(s) == [""] + rest;
        assert ([""] + rest)[1..] == rest;
        assert s == "" + "/" + s[1..];
      } else if |rest| == 1 {
        assert Fields(s) == [[s[0]] + rest[0]];
        assert s == [s[0]] + s[1..];
      } else {
        var f := [[s[0]] + rest[0]] + rest[1..];
        assert f[1..] == rest[1..];
        assert Join(rest) == rest[0] + "/" + Join(rest[1..]);
        assert s == [s[0]] + s[1..];
      }
    }
  }

  // ---------------------------------------------------------------------
  // Reduce

  lemma {:induction false} ReduceConcat(a: seq<string>, b: seq<string>, rooted: bool, kept: seq<string>)
    ensures Reduce(a + b, rooted, kept) == Reduce(b, rooted, Reduce(a, rooted, kept))
    decreases |a|
  {
    if |a| > 0 {
      assert (a + b)[1..] == a[1..] + b;
      ReduceConcat(a[1..], b, rooted, Step(kept, a[0], rooted));
    } else {
      assert a + b == b;
    }
  }

  /** Valid names are pushed unchanged, whatever is already kept. */
  lemma {:induction false} ReduceValid(segs: seq<string>, rooted: bool, kept: seq<string>)
    requires AllValid(segs)
    ensures Reduce(segs, rooted, kept) == kept + segs
    decreases |segs|
  {
    if |segs| > 0 {
      ReduceValid(segs[1..], rooted, kept + [segs[0]]);
      assert kept + [segs[0]] + segs[1..] == kept + segs;
    }
  }

  /** In a rooted path, reducing slash-free fields keeps only valid names. */
  lemma {:induction false} ReduceRootedValid(fields: seq<string>, kept: seq<string>)
    requires AllValid(kept)
    requires forall i :: 0 <= i < |fields| ==> '/' !in fields[i]
    ensures AllValid(Reduce(fields, true, kept))
    decreases |fields|
  {
    if |fields| > 0 {
      ReduceRootedValid(fields[1..], Step(kept, fields[0], true));
    }
  }

  // ---------------------------------------------------------------------
  // Rooted cleaned paths

  /** A valid name list is empty exactly when its rooted spelling is "/". */
  lemma RootedIsSlash(segs: seq<string>)
    requires AllValid(segs)
    ensures Rooted(segs) == "/" <==> segs == []
  {
  }

  /** The fields of a rooted spelling: an empty field for the root, then the names. */
  lemma FieldsOfRooted(segs: seq<string>)
    requires AllValid(segs)
    ensures Fields(Rooted(segs)) == if segs == [] then ["", ""] else [""] + segs
  {
    FieldsConcat("", Join(segs));
    assert Rooted(segs) == "" + "/" + Join(segs);
    if segs != [] {
      FieldsOfJoin(segs);
    }
  }

  /** Cleaning a rooted path spells out what reducing its fields keeps. */
  lemma CleanOfRootedPath(p: string)
    requires p != "" && p[0] == '/'
    ensures Clean(p) == Rooted(Reduce(Fields(p), true, []))
  {
  }

  /** Reducing a root field and then valid names keeps exactly those names. */
  lemma ReduceRootThenValid(segs: seq<string>, tail: seq<string>)
    requires AllValid(segs)
    requires tail == [] || tail == [""]
    ensures Reduce([""] + segs + tail, true, []) == segs
  {
    assert Reduce([""], true, []) == [] by {
      assert [""][1..] == [];
    }
    ReduceConcat([""] + segs, tail, true, []);
    ReduceConcat([""], segs, true, []);
    ReduceValid(segs, true, []);
    assert [] + segs == segs;
    if tail == [""] {
      assert Reduce(tail, true, segs) == segs by {
        assert tail[1..] == [];
      }
    }
  }

  /** A cleaned rooted path is its own cleaned form. */
  lemma CleanRooted(segs: seq<string>)
    requires AllValid(segs)
    ensures Clean(Rooted(segs)) == Rooted(segs)
  {
    FieldsOfRooted(segs);
    CleanOfRootedPath(Rooted(segs));
    if segs == [] {
      ReduceRootThenValid([], [""]);
      assert [""] + [] + [""] == ["", ""];
    } else {
      ReduceRootThenValid(segs, []);
      assert [""] + segs + [] == [""] + segs;
    }
  }

  /** The directory `Split` peels off a rooted path with a trailing slash
      cleans back to the parent. */
  lemma CleanRootedSlash(segs: seq<string>)
    requires AllValid(segs)
    ensures Clean(Rooted(segs) + "/") == Rooted(segs)
  {
    var p := Rooted(segs) + "/";
    CleanOfRootedPath(p);
    if segs == [] {
      assert p == "" + "/" + ("" + "/" + "");
      FieldsConcat("", "" + "/" + "");
      FieldsConcat("", "");
      assert Fields(p) == [""] + ([""] + [] + [""]);
      ReduceRootThenValid([], [""]);
      assert Reduce([""], true, []) == [] by {
        assert [""][1..] == [];
      }
      ReduceConcat([""], [""] + [] + [""], true, []);
    } else {
      assert p == "" + "/" + (Join(segs) + "/" + "");
      FieldsConcat("", Join(segs) + "/" + "");
      FieldsConcat(Join(segs), "");
      FieldsOfJoin(segs);
      assert Fields(p) == [""] + segs + [""];
      ReduceRootThenValid(segs, [""]);
    }
  }

  /** `Split` of a rooted cleaned path separates the last name from the
      spelling of its parent. */
  lemma SplitRooted(segs: seq<string>)
    requires AllValid(segs) && |segs| >= 1
    ensures var init := segs[..|segs| - 1];
      Split(Rooted(segs)) == (if init == [] then "/" else Rooted(init) + "/", segs[|segs| - 1])
  {
    var init := segs[..|segs| - 1];
    var x := segs[|segs| - 1];
    assert segs == init + [x];
    var dir := if init == [] then "/" else Rooted(init) + "/";
    if init != [] {
      JoinSnoc(init, x);
    }
    assert Rooted(segs) == dir + x;
    var p := Rooted(segs);
    var i := LastSlash(p);
    assert p[|dir| - 1] == '/';
    assert forall k :: |dir| <= k < |p| ==> p[k] == x[k - |dir|];
    assert i == |dir| - 1;
    assert p[..i + 1] == dir;
    assert p[i + 1..] == x;
  }
}

=== FILE: pathparts.dfy ===
/** `pathParts` (onedrive.go): a slash path decomposed into the names of
    its cleaned rooted form, root to leaf.  The Go code cleans the path,
    peels names off the end with `path.Split` and then reverses the list in
    place; `Segments` is the independent reference it is proved against. */
module PathSegments {
  import opened GoPath

  /** The names of `Clean("/" + pth)`, root to leaf. */
  function Segments(pth: string): (r: seq<string>)
    ensures AllValid(r)
  {
    ReduceRootedValid(Fields("/" + pth), []);
    Reduce(Fields("/" + pth), true, [])
  }

  /** The reverse of a sequence. */
  function Reverse<T>(s: seq<T>): (r: seq<T>)
    ensures |r| == |s|
  {
    seq(|s|, k requires 0 <= k < |s| => s[|s| - 1 - k])
  }

  /** The peeling loop of `pathParts`: starting from the cleaned path, split
      off the last name and clean the directory until only "/" remains.
      The names come out leaf first. */
  method CollectLeafFirst(pth: string) returns (leafFirst: seq<string>)
    ensures Reverse(leafFirst) == Segments(pth)
  {
    var p := Clean("/" + pth);
    ghost var rest := Segments(pth);
    leafFirst := [];
    while p != "/"
      invariant AllValid(rest)
      invariant p == Rooted(rest)
      invariant rest + Reverse(leafFirst) == Segments(pth)
      decreases |rest|
    {
      RootedIsSlash(rest);
      PeelLast(rest);
      var init := rest[..|rest| - 1];
      var name := rest[|rest| - 1];
      var (dir, file) := Split(p);
      p := Clean(dir);
      assert Reverse(leafFirst + [file]) == [file] + Reverse(leafFirst);
      assert rest == init + [name];
      leafFirst := leafFirst + [file];
      rest := init;
    }
    RootedIsSlash(rest);
  }

  /** One turn of the peeling loop: `Split` yields the last name, and
      cleaning the directory half gives the parent's spelling. */
  lemma PeelLast(segs: seq<string>)
    requires AllValid(segs) && |segs| >= 1
    ensures Split(Rooted(segs)).1 == segs[|segs| - 1]
    ensures Clean(Split(Rooted(segs)).0) == Rooted(segs[..|segs| - 1])
  {
    var init := segs[..|segs| - 1];
    SplitRooted(segs);
    assert Rooted([]) == "/";
    if init == [] {
      CleanRooted([]);
    } else {
      CleanRootedSlash(init);
    }
  }

  /** The in-place swap loop of `pathParts`: element `i` trades places with
      element `len - 1 - i` for every `i` below half the length. */
  method ReverseInPlace(s: seq<string>) returns (r: seq<string>)
    ensures |r| == |s|
    ensures forall k :: 0 <= k < |s| ==> r[k] == s[|s| - 1 - k]
  {
    var parts := new string[|s|](k requires 0 <= k < |s| => s[k]);
    var l := |s| - 1;
    var h := |s| / 2;
    var i := 0;
    while i < h
      invariant 0 <= i <= h
      invariant forall k :: 0 <= k < i ==> parts[k] == s[l - k] && parts[l - k] == s[k]
      invariant forall k :: i <= k <= l - i ==> parts[k] == s[k]
    {
      var t := parts[i];
      var ii := l - i;
      parts[i] := parts[ii];
      parts[ii] := t;
      i := i + 1;
    }
    r := parts[..];
  }

  /** `pathParts`: the names of the cleaned path, root to leaf. */
  method PathParts(pth: string) returns (parts: seq<string>)
    ensures parts == Segments(pth)
    ensures AllValid(parts)
    ensures Clean("/" + pth) == Rooted(parts)
    ensures parts == [] <==> Clean("/" + pth) == "/"
  {
    var leafFirst := CollectLeafFirst(pth);
    parts := ReverseInPlace(leafFirst);
    assert parts == Reverse(leafFirst);
    CleanOfRootedPath("/" + pth);
    RootedIsSlash(parts);
  }

  // ---------------------------------------------------------------------
  // Properties of the decomposition

  /** The cleaned path is exactly "/" followed by the names joined by "/". */
  lemma CleanIsRootedSegments(pth: string)
    ensures Clean("/" + pth) == Rooted(Segments(pth))
  {
  }

  /** Cleaning the cleaned path changes nothing. */
  lemma CleanIdempotent(pth: string)
    ensures Clean(Clean("/" + pth)) == Clean("/" + pth)
  {
    CleanIsRootedSegments(pth);
    CleanRooted(Segments(pth));
  }

  /** A path yields no names exactly when it cleans to the root. */
  lemma NoSegmentsIffRoot(pth: string)
    ensures Segments(pth) == [] <==> Clean("/" + pth) == "/"
  {
  }

  /** The empty path and the root have no names. */
  lemma EmptyAndRootHaveNoSegments()
    ensures Segments("") == []
    ensures Segments("/") == []
  {
    SegmentsOfJoin([]);
    assert Join([]) == "";
    assert "/" + Join([]) == "/";
  }

  /** The fields of the rooted form of "/a/..". */
  lemma FieldsOfClimbBack()
    ensures Fields("/" + "/a/..") == ["", "", "a", ".."]
  {
    var s1 := "/" + "..";
    assert s1[1..] == ".." && Fields(s1) == [""] + [".."];
    var s2 := "a" + s1;
    assert s2[0] == 'a' && s2[1..] == s1;
    assert Fields(s2) == [['a'] + ""] + [".."];
    assert ['a'] + "" == "a";
    var s3 := "/" + s2;
    assert s3[1..] == s2 && Fields(s3) == ["", "a", ".."];
    var s4 := "/" + s3;
    assert s4[1..] == s3 && Fields(s4) == ["", "", "a", ".."];
    assert s4 == "/" + "/a/..";
  }

  /** A path whose `..` climbs back to the root has no names. */
  lemma ClimbBackHasNoSegments()
    ensures Segments("/a/..") == []
  {
    FieldsOfClimbBack();
    var fs: seq<string> := ["", "", "a", ".."];
    ReduceConcat(["", ""], ["a", ".."], true, []);
    assert fs == ["", ""] + ["a", ".."];
    assert Reduce(["", ""], true, []) == [] by {
      ReduceRootThenValid([], [""]);
      assert [""] + [] + [""] == ["", ""];
    }
    assert Reduce(["a", ".."], true, []) == [] by {
      assert ["a", ".."][1..] == [".."];
      assert [".."][1..] == [];
    }
  }

  /** Names of a cleaned path spelled out again, with or without the leading
      slash, decompose to the same names. */
  lemma SegmentsOfJoin(segs: seq<string>)
    requires AllValid(segs)
    ensures Segments(Join(segs)) == segs
    ensures Segments("/" + Join(segs)) == segs
  {
    FieldsOfRooted(segs);
    CleanRooted(segs);
    CleanOfRootedPath(Rooted(segs));
    ReduceRootThenValid(segs, []);
    assert [""] + segs + [] == [""] + segs;
    if segs == [] {
      assert Reduce(["", ""], true, []) == [] by {
        ReduceRootThenValid([], [""]);
        assert [""] + [] + [""] == ["", ""];
      }
      assert Segments(Join(segs)) == [];
      assert "/" + ("/" + Join(segs)) == "" + "/" + ("" + "/" + "");
      FieldsConcat("", "" + "/" + "");
      FieldsConcat("", "");
      assert Fields("/" + ("/" + Join(segs))) == [""] + ["", ""];
      ReduceConcat([""], ["", ""], true, []);
      assert Reduce([""], true, []) == [] by {
        assert [""][1..] == [];
      }
    } else {
      assert Segments(Join(segs)) == segs;
      var p := "/" + ("/" + Join(segs));
      assert p == "" + "/" + ("" + "/" + Join(segs));
      FieldsConcat("", "" + "/" + Join(segs));
      FieldsConcat("", Join(segs));
      FieldsOfJoin(segs);
      assert Fields(p) == [""] + ([""] + segs + []);
      ReduceConcat([""], [""] + segs + [], true, []);
      assert Reduce([""], true, []) == [] by {
        assert [""][1..] == [];
      }
    }
  }

  /** Idempotence: re-joining the names and decomposing again gives the same names. */
  lemma SegmentsIdempotent(pth: string)
    ensures Segments("/" + Join(Segments(pth))) == Segments(pth)
    ensures Segments(Join(Segments(pth))) == Segments(pth)
  {
    SegmentsOfJoin(Segments(pth));
  }

  /** Different valid name lists have different rooted spellings. */
  lemma RootedInjective(a: seq<string>, b: seq<string>)
    requires AllValid(a) && AllValid(b)
    requires Rooted(a) == Rooted(b)
    ensures a == b
  {
    SegmentsOfJoin(a);
    SegmentsOfJoin(b);
    assert Join(a) == Rooted(a)[1..];
    assert Join(b) == Rooted(b)[1..];
  }

  /** Paths with the same cleaned form decompose to the same names, and
      conversely. */
  lemma SameCleanSameSegments(p: string, q: string)
    ensures Clean("/" + p) == Clean("/" + q) <==> Segments(p) == Segments(q)
  {
    CleanIsRootedSegments(p);
    CleanIsRootedSegments(q);
    if Clean("/" + p) == Clean("/" + q) {
      RootedInjective(Segments(p), Segments(q));
    }
  }
}

=== FILE: resolver.dfy ===
/** `ResolvePath` (onedrive.go): from the root node, follow the path's names
    one listing at a time, taking the first child whose name equals the
    name up to ASCII case.  The remote service is given as two oracles:
    the node lookup behind `NodeInfo` and the child listing behind
    `NodeFiles`. */
module Resolver {
  import opened Base
  import opened GoPath
  import opened PathSegments

  /** The id `RootInfo` looks up. */
  const RootAlias: string := "me/skydrive"

  /** The answer of the node lookup for an id. */
  type InfoOracle = string -> Result<Node>

  /** The answer of the child listing for an id. */
  type FilesOracle = string -> Result<seq<Node>>

  predicate IsUpper(c: char)
  {
    'A' <= c <= 'Z'
  }

  /** ASCII lower-casing of one character. */
  function LowerChar(c: char): (l: char)
  {
    if IsUpper(c) then (c as int + 32) as char else c
  }

  /** ASCII lower-casing of a string. */
  function Lower(s: string): (r: string)
    ensures |r| == |s|
    ensures forall i :: 0 <= i < |r| ==> !IsUpper(r[i])
    ensures forall i :: 0 <= i < |r| ==> r[i] == s[i] || (IsUpper(s[i]) && r[i] as int == s[i] as int + 32)
  {
    seq(|s|, i requires 0 <= i < |s| => LowerChar(s[i]))
  }

  /** Two names are the same name when they agree after lower-casing. */
  predicate SameName(a: string, b: string)
  {
    Lower(a) == Lower(b)
  }

  /** The inner loop of `ResolvePath`: the index of the first child whose
      name is the same name as `part`. */
  function FirstMatch(files: seq<Node>, part: string): (r: Option<nat>)
    ensures r.Some? ==> r.value < |files| && SameName(files[r.value].name, part)
    ensures r.Some? ==> forall j :: 0 <= j < r.value ==> !SameName(files[j].name, part)
    ensures r.None? <==> forall j :: 0 <= j < |files| ==> !SameName(files[j].name, part)
    decreases |files|
  {
    var name := Lower(part);
    if |files| == 0 then None
    else if Lower(files[0].name) == name then Some(0)
    else match FirstMatch(files[1..], part)
      case None => None
      case Some(k) => Some(k + 1)
  }

  /** What `ResolvePath` returns, together with the ids whose children it
      listed, in order.  As in the Go code, `id` is meaningful only when
      `err` is `None`: a failed listing leaves the current id in place and a
      missing name sets it to "". */
  datatype Resolved = Resolved(id: string, err: Option<Error>, listed: seq<string>)

  /** `j` is the first child whose name is the same name as `part`. */
  ghost predicate FirstChild(children: seq<Node>, part: string, j: int)
  {
    && 0 <= j < |children|
    && SameName(children[j].name, part)
    && forall i :: 0 <= i < j ==> !SameName(children[i].name, part)
  }

  /** No child has the same name as `part`. */
  ghost predicate NoMatch(children: seq<Node>, part: string)
  {
    forall j :: 0 <= j < |children| ==> !SameName(children[j].name, part)
  }

  /** One step of resolution as a specification: listing `from` succeeds
      and its first child named `part` has id `to`. */
  ghost predicate Leads(files: FilesOracle, from: string, part: string, to: string)
  {
    files(from).Ok? &&
    exists j :: FirstChild(files(from).value, part, j) && files(from).value[j].id == to
  }

  /** `ids` is the chain of nodes the names lead through: `ids[i + 1]` is
      where `parts[i]` leads from `ids[i]`. */
  ghost predicate Follows(files: FilesOracle, ids: seq<string>, parts: seq<string>)
  {
    |ids| == |parts| + 1 &&
    forall i :: 0 <= i < |parts| ==> Leads(files, ids[i], parts[i], ids[i + 1])
  }

  /** What a walk from `id` over `parts` may return.  No names: the start
      id, nothing listed.  Otherwise the first listing is of the start.  On
      success: one listing per name, and the listed ids followed by the
      result form the chain the names lead through.  On failure: the
      listings before the last form that chain, and the last listed node
      either failed to list (its error, the current id kept) or has no child
      with the name (`NotFound` naming it, id ""). */
  ghost predicate WalkOutcome(files: FilesOracle, id: string, parts: seq<string>, r: Resolved)
  {
    && (parts == [] ==> r == Resolved(id, None, []))
    && (parts != [] ==> 1 <= |r.listed| <= |parts| && r.listed[0] == id)
    && (r.err.None? ==> |r.listed| == |parts| && Follows(files, r.listed + [r.id], parts))
    && (r.err.Some? ==>
      var n := |r.listed|;
      && 1 <= n <= |parts|
      && Follows(files, r.listed, parts[..n - 1])
      && (files(r.listed[n - 1]).Err? ==>
            r.err == Some(files(r.listed[n - 1]).error) && r.id == r.listed[n - 1])
      && (files(r.listed[n - 1]).Ok? ==>
            NoMatch(files(r.listed[n - 1]).value, parts[n - 1])
            && r.err == Some(NotFound(parts[n - 1])) && r.id == ""))
  }

  /** The loop of `ResolvePath` over the names, from node `id`. */
  function Walk(files: FilesOracle, id: string, parts: seq<string>): (r: Resolved)
    ensures WalkOutcome(files, id, parts, r)
    decreases |parts|
  {
    if parts == [] then Resolved(id, None, [])
    else
      match files(id)
      case Err(e) => Resolved(id, Some(e), [id])
      case Ok(children) =>
        match FirstMatch(children, parts[0])
        case None => Resolved("", Some(NotFound(parts[0])), [id])
        case Some(k) =>
          var rest := Walk(files, children[k].id, parts[1..]);
          WalkCons(files, id, parts, k, rest);
          Resolved(rest.id, rest.err, [id] + rest.listed)
  }

  /** `ResolvePath`: look up the root, then walk the names of the path. */
  function ResolvePath(info: InfoOracle, files: FilesOracle, pth: string): (r: Resolved)
    ensures info(RootAlias).Err? ==> r == Resolved("", Some(info(RootAlias).error), [])
    ensures |r.listed| <= |Segments(pth)|
    ensures info(RootAlias).Ok? && Segments(pth) != [] ==> |r.listed| >= 1 && r.listed[0] == info(RootAlias).value.id
    ensures info(RootAlias).Ok? && r.err.None? ==>
      && |r.listed| == |Segments(pth)|
      && Follows(files, r.listed + [r.id], Segments(pth))
      && (Segments(pth) == [] ==> r.id == info(RootAlias).value.id)
    ensures r.err.Some? && 1 <= |r.listed| <= |Segments(pth)| ==> r.err.value == NotFound(Segments(pth)[|r.listed| - 1]) || files(r.listed[|r.listed| - 1]).Err?
    ensures info(RootAlias).Ok? ==> WalkOutcome(files, info(RootAlias).value.id, Segments(pth), r)
  {
    match info(RootAlias)
    case Err(e) => Resolved("", Some(e), [])
    case Ok(root) => Walk(files, root.id, Segments(pth))
  }

  // ---------------------------------------------------------------------
  // Helpers linking the loop to the specification

  /** A step in front of a chain is a longer chain. */
  lemma FollowsCons(files: FilesOracle, id: string, part: string, ids: seq<string>, parts: seq<string>)
    requires Follows(files, ids, parts) && Leads(files, id, part, ids[0])
    ensures Follows(files, [id] + ids, [part] + parts)
  {
    var ids' := [id] + ids;
    var parts' := [part] + parts;
    forall i | 0 <= i < |parts'|
      ensures Leads(files, ids'[i], parts'[i], ids'[i + 1])
    {
      if i > 0 {
        assert ids'[i] == ids[i - 1] && ids'[i + 1] == ids[i] && parts'[i] == parts[i - 1];
      }
    }
  }

  /** One matched name followed by a walk from the matched child is a walk
      from the parent. */
  lemma WalkCons(files: FilesOracle, id: string, parts: seq<string>, k: nat, rest: Resolved)
    requires parts != [] && files(id).Ok?
    requires FirstMatch(files(id).value, parts[0]) == Some(k)
    requires WalkOutcome(files, files(id).value[k].id, parts[1..], rest)
    ensures WalkOutcome(files, id, parts, Resolved(rest.id, rest.err, [id] + rest.listed))
  {
    var next := files(id).value[k].id;
    assert FirstChild(files(id).value, parts[0], k);
    assert Leads(files, id, parts[0], next);
    var n := |rest.listed|;
    if rest.err.None? {
      assert (rest.listed + [rest.id])[0] == next;
      FollowsCons(files, id, parts[0], rest.listed + [rest.id], parts[1..]);
      assert [parts[0]] + parts[1..] == parts;
      assert [id] + (rest.listed + [rest.id]) == [id] + rest.listed + [rest.id];
    } else {
      FollowsCons(files, id, parts[0], rest.listed, parts[1..][..n - 1]);
      assert [parts[0]] + parts[1..][..n - 1] == parts[..n];
      assert ([id] + rest.listed)[n] == rest.listed[n - 1];
      assert parts[n] == parts[1..][n - 1];
    }
  }

  /** There is only one first match. */
  lemma FirstChildUnique(children: seq<Node>, part: string, j: int, k: int)
    requires FirstChild(children, part, j) && FirstChild(children, part, k)
    ensures j == k
  {
  }

  // ---------------------------------------------------------------------
  // Properties of resolution

  /** Names differing only in ASCII case are the same name. */
  lemma CaseInsensitiveExample()
    ensures SameName("Docs", "docs")
    ensures SameName("Summer.JPG", "summer.jpg")
    ensures !SameName("Docs", "Doc")
  {
  }

  /** Appending children after a match never changes which child matches. */
  lemma {:induction false} FirstMatchIgnoresLater(files: seq<Node>, more: seq<Node>, part: string)
    requires FirstMatch(files, part).Some?
    ensures FirstMatch(files + more, part) == FirstMatch(files, part)
    decreases |files|
  {
    if Lower(files[0].name) != Lower(part) {
      assert (files + more)[1..] == files[1..] + more;
      FirstMatchIgnoresLater(files[1..], more, part);
    }
  }

  /** Completeness of the walk: when the names lead through the chain
      `ids`, the walk lists exactly the chain's nodes but the last, one per
      name, and returns the last. */
  lemma {:induction false} WalkFollowsChain(files: FilesOracle, ids: seq<string>, parts: seq<string>)
    requires Follows(files, ids, parts)
    ensures Walk(files, ids[0], parts) == Resolved(ids[|parts|], None, ids[..|parts|])
    decreases |parts|
  {
    if parts != [] {
      assert Leads(files, ids[0], parts[0], ids[1]);
      var children := files(ids[0]).value;
      var j :| FirstChild(children, parts[0], j) && children[j].id == ids[1];
      var k := FirstMatch(children, parts[0]).value;
      FirstChildUnique(children, parts[0], j, k);
      assert Follows(files, ids[1..], parts[1..]) by {
        forall i | 0 <= i < |parts[1..]|
          ensures Leads(files, ids[1..][i], parts[1..][i], ids[1..][i + 1])
        {
          assert Leads(files, ids[i + 1], parts[i + 1], ids[i + 2]);
        }
      }
      WalkFollowsChain(files, ids[1..], parts[1..]);
      assert [ids[0]] + ids[1..][..|parts| - 1] == ids[..|parts|];
    }
  }

  /** The walk stops at the first name with no match: it returns "" and a
      not-found error naming that segment, and lists nothing after the node
      where the name was missing. */
  lemma {:induction false} WalkStopsAtMiss(files: FilesOracle, ids: seq<string>, parts: seq<string>)
    requires |ids| >= 1 && |ids| <= |parts|
    requires Follows(files, ids, parts[..|ids| - 1])
    requires files(ids[|ids| - 1]).Ok?
    requires NoMatch(files(ids[|ids| - 1]).value, parts[|ids| - 1])
    ensures Walk(files, ids[0], parts) == Resolved("", Some(NotFound(parts[|ids| - 1])), ids)
    decreases |ids|
  {
    if |ids| == 1 {
      assert FirstMatch(files(ids[0]).value, parts[0]).None?;
    } else {
      assert Leads(files, ids[0], parts[0], ids[1]);
      var children := files(ids[0]).value;
      var j :| FirstChild(children, parts[0], j) && children[j].id == ids[1];
      assert FirstMatch(children, parts[0]).Some?;
      var k := FirstMatch(children, parts[0]).value;
      FirstChildUnique(children, parts[0], j, k);
      assert Follows(files, ids[1..], parts[1..][..|ids| - 2]) by {
        forall i | 0 <= i < |ids| - 2
          ensures Leads(files, ids[1..][i], parts[1..][..|ids| - 2][i], ids[1..][i + 1])
        {
          assert Leads(files, ids[i + 1], parts[..|ids| - 1][i + 1], ids[i + 2]);
        }
      }
      WalkStopsAtMiss(files, ids[1..], parts[1..]);
      assert [ids[0]] + ids[1..] == ids;
    }
  }

  /** A path that cleans to the root resolves to the root id without listing
      any children. */
  lemma ResolveRootPath(info: InfoOracle, files: FilesOracle, pth: string)
    requires Clean("/" + pth) == "/"
    ensures info(RootAlias).Ok? ==> ResolvePath(info, files, pth) == Resolved(info(RootAlias).value.id, None, [])
    ensures info(RootAlias).Err? ==> ResolvePath(info, files, pth).listed == []
  {
  }

  /** Paths with the same cleaned form resolve identically. */
  lemma ResolveCanonical(info: InfoOracle, files: FilesOracle, p: string, q: string)
    requires Clean("/" + p) == Clean("/" + q)
    ensures ResolvePath(info, files, p) == ResolvePath(info, files, q)
  {
    SameCleanSameSegments(p, q);
  }

  /** A remote tree for the end-to-end walk: root "r" holds "Photos" (id
      "p"), which holds "2020" (id "y"), which holds "Summer.JPG" (id "s"). */
  function PhotoTree(id: string): (r: Result<seq<Node>>)
  {
    if id == "r" then Ok([Node("d", "Documents", "", 0), Node("p", "Photos", "", 0)])
    else if id == "p" then Ok([Node("y", "2020", "", 0)])
    else if id == "y" then Ok([Node("s", "Summer.JPG", "https://example.invalid/s", 0)])
    else Ok([])
  }

  lemma PhotoRootLeadsToPhotos()
    ensures Leads(PhotoTree, "r", "Photos", "p")
  {
    assert Lower("Documents") != Lower("Photos") by {
      assert Lower("Documents")[0] == 'd';
      assert Lower("Photos")[0] == 'p';
    }
    assert FirstChild(PhotoTree("r").value, "Photos", 1);
  }

  lemma PhotosLeadsTo2020()
    ensures Leads(PhotoTree, "p", "2020", "y")
  {
    assert FirstChild(PhotoTree("p").value, "2020", 0);
  }

  lemma YearLeadsToSummer()
    ensures Leads(PhotoTree, "y", "summer.jpg", "s")
  {
    assert Lower("Summer.JPG") == "summer.jpg" == Lower("summer.jpg");
    assert FirstChild(PhotoTree("y").value, "summer.jpg", 0);
  }

  /** End to end: walking `Photos/2020/summer.jpg` from the root lists the
      root, `Photos` and `2020`, one listing per name, and returns the id of
      `Summer.JPG`, a name that differs from the path's in case. */
  lemma PhotoWalk()
    ensures Walk(PhotoTree, "r", ["Photos", "2020", "summer.jpg"]) == Resolved("s", None, ["r", "p", "y"])
  {
    var parts := ["Photos", "2020", "summer.jpg"];
    var ids := ["r", "p", "y", "s"];
    PhotoRootLeadsToPhotos();
    PhotosLeadsTo2020();
    YearLeadsToSummer();
    assert Follows(PhotoTree, ids, parts);
    WalkFollowsChain(PhotoTree, ids, parts);
    assert ids[..3] == ["r", "p", "y"];
  }
}

=== FILE: transfer.dfy ===
/** The request-shaping decisions of `Download`, `Upload` and
    `UploadOverwrite` (onedrive.go).  The HTTP exchanges themselves are
    oracle values: the node lookup's answer, the content response's length,
    the upload response's final name. */
module Transfer {
  import opened Base

  // ---------------------------------------------------------------------
  // Decimal numbers as `fmt`'s `%d` writes them

  predicate IsDigit(c: char)
  {
    '0' <= c <= '9'
  }

  function DigitChar(d: nat): (c: char)
    requires d < 10
    ensures IsDigit(c)
  {
    ('0' as int + d) as char
  }

  /** The decimal digits of `n`, most significant first, no leading zero. */
  function Digits(n: nat): (s: string)
    ensures |s| >= 1
    ensures forall i :: 0 <= i < |s| ==> IsDigit(s[i])
    ensures s[0] == '0' ==> n == 0
  {
    if n < 10 then [DigitChar(n)]
    else Digits(n / 10) + [DigitChar(n % 10)]
  }

  /** `%d`: an optional minus sign, then the digits of the magnitude. */
  function DecimalString(n: int): (s: string)
    ensures |s| >= 1
    ensures forall i :: 1 <= i < |s| ==> IsDigit(s[i])
    ensures s[0] == '-' <==> n < 0
  {
    if n < 0 then "-" + Digits(-n) else Digits(n)
  }

  /** The value of a non-empty string of decimal digits, leading zeros
      allowed. */
  function DigitsValue(s: string): (r: Option<nat>)
    ensures r.Some? ==> |s| >= 1 && forall i :: 0 <= i < |s| ==> IsDigit(s[i])
  {
    if |s| == 0 || !IsDigit(s[|s| - 1]) then None
    else
      var d := (s[|s| - 1] as int - '0' as int) as nat;
      if |s| == 1 then Some(d)
      else match DigitsValue(s[..|s| - 1])
        case None => None
        case Some(v) => Some(v * 10 + d)
  }

  /** The value of a decimal as `%d` spells a non-negative number: digits
      only, and no leading zero unless the number is zero. */
  function ParseNat(s: string): (r: Option<nat>)
    ensures r.Some? ==> |s| >= 1 && (|s| == 1 || s[0] != '0')
  {
    if |s| > 1 && s[0] == '0' then None else DigitsValue(s)
  }

  /** The value of a decimal as `%d` spells any number: a minus sign is
      followed by a non-zero magnitude. */
  function ParseDecimal(s: string): (r: Option<int>)
    ensures r.Some? && |s| > 0 && s[0] == '-' ==> r.value < 0
  {
    if |s| > 0 && s[0] == '-' then
      match ParseNat(s[1..])
      case None => None
      case Some(v) => if v == 0 then None else Some(0 - v as int)
    else
      match ParseNat(s)
      case None => None
      case Some(v) => Some(v)
  }

  lemma {:induction false} ParseDigits(n: nat)
    ensures DigitsValue(Digits(n)) == Some(n)
    decreases n
  {
    if n >= 10 {
      var s := Digits(n);
      assert s[..|s| - 1] == Digits(n / 10);
      ParseDigits(n / 10);
    }
  }

  /** A digit string without a leading zero is the spelling of its value. */
  lemma {:induction false} DigitsOfValue(s: string, v: nat)
    requires DigitsValue(s) == Some(v)
    requires |s| == 1 || s[0] != '0'
    ensures s == Digits(v)
    decreases |s|
  {
    var c := s[|s| - 1];
    var d := (c as int - '0' as int) as nat;
    if |s| == 1 {
      assert DigitChar(d) == c;
      assert s == [c];
    } else {
      var init := s[..|s| - 1];
      var w := DigitsValue(init).value;
      assert init[0] == s[0];
      DigitsOfValue(init, w);
      assert w != 0;
      assert v == w * 10 + d && d < 10;
      assert v / 10 == w && v % 10 == d;
      assert DigitChar(d) == c;
      assert s == init + [c];
    }
  }

  /** Reading back what `%d` wrote gives the number. */
  lemma DecimalRoundTrip(n: int)
    ensures ParseDecimal(DecimalString(n)) == Some(n)
  {
    if n < 0 {
      assert DecimalString(n)[1..] == Digits(-n);
      ParseDigits(-n);
    } else {
      ParseDigits(n);
    }
  }

  /** The only string that reads as `n` is the one `%d` writes for it. */
  lemma DecimalCanonical(s: string, n: int)
    requires ParseDecimal(s) == Some(n)
    ensures s == DecimalString(n)
  {
    if |s| > 0 && s[0] == '-' {
      var v := ParseNat(s[1..]).value;
      DigitsOfValue(s[1..], v);
      assert s == "-" + s[1..];
    } else {
      DigitsOfValue(s, ParseNat(s).value);
    }
  }

  // ---------------------------------------------------------------------
  // Download

  /** `ioutils.FileSpan`: an inclusive byte range. */
  datatype Span = Span(start: int, end: int)

  /** The value of the `Range` header for a span: `bytes=start-end`. */
  function RangeHeader(span: Span): (h: string)
    ensures |h| >= 9 && h[..6] == "bytes="
    ensures forall i :: 6 <= i < |h| ==> IsDigit(h[i]) || h[i] == '-'
  {
    "bytes=" + DecimalString(span.start) + "-" + DecimalString(span.end)
  }

  /** The first `-` at or after index `from`. */
  function FindDash(s: string, from: nat): (r: Option<nat>)
    ensures r.Some? ==> from <= r.value < |s| && s[r.value] == '-'
    ensures r.Some? ==> forall i :: from <= i < r.value ==> s[i] != '-'
    ensures r.None? ==> forall i :: from <= i < |s| ==> s[i] != '-'
    decreases |s| - from
  {
    if from >= |s| then None
    else if s[from] == '-' then Some(from)
    else FindDash(s, from + 1)
  }

  /** Reads a `Range` header value back into a span: the start may carry a
      minus sign, so the separator is the first `-` after the start's first
      character. */
  function ParseRange(h: string): (r: Option<Span>)
  {
    if |h| < 6 || h[..6] != "bytes=" then None
    else
      var rest := h[6..];
      match FindDash(rest, 1)
      case None => None
      case Some(k) =>
        match (ParseDecimal(rest[..k]), ParseDecimal(rest[k + 1..]))
        case (Some(a), Some(b)) => Some(Span(a, b))
        case _ => None
  }

  /** The header names exactly the span it was built from. */
  lemma RangeRoundTrip(span: Span)
    ensures ParseRange(RangeHeader(span)) == Some(span)
  {
    var a := DecimalString(span.start);
    var b := DecimalString(span.end);
    var h := RangeHeader(span);
    assert h[..6] == "bytes=";
    var rest := h[6..];
    assert rest == a + "-" + b;
    assert rest[|a|] == '-';
    assert forall i :: 1 <= i < |a| ==> rest[i] == a[i];
    assert FindDash(rest, 1) == Some(|a|);
    assert rest[..|a|] == a;
    assert rest[|a| + 1..] == b;
    DecimalRoundTrip(span.start);
    DecimalRoundTrip(span.end);
  }

  /** The pieces a successful `ParseRange` read: the prefix, the start's
      spelling, the separating dash and the end's spelling. */
  lemma RangePieces(h: string, span: Span) returns (a: string, b: string)
    requires ParseRange(h) == Some(span)
    ensures h == "bytes=" + a + "-" + b
    ensures ParseDecimal(a) == Some(span.start) && ParseDecimal(b) == Some(span.end)
  {
    var rest := h[6..];
    var k := FindDash(rest, 1).value;
    a, b := rest[..k], rest[k + 1..];
    AroundDash(rest, k);
    assert h == h[..6] + rest;
  }

  /** `ParseRange` accepts only the exact spelling `RangeHeader` writes. */
  lemma RangeCanonical(h: string, span: Span)
    requires ParseRange(h) == Some(span)
    ensures h == RangeHeader(span)
  {
    var a, b := RangePieces(h, span);
    DecimalCanonical(a, span.start);
    DecimalCanonical(b, span.end);
  }

  /** A string is the parts before and after one of its dashes, joined by it. */
  lemma AroundDash(s: string, k: nat)
    requires k < |s| && s[k] == '-'
    ensures s == s[..k] + "-" + s[k + 1..]
  {
  }

  /** A header value names a span exactly when it is that span's spelling. */
  lemma RangeSpelling(h: string, span: Span)
    ensures ParseRange(h) == Some(span) <==> h == RangeHeader(span)
  {
    if ParseRange(h) == Some(span) {
      RangeCanonical(h, span);
    }
    if h == RangeHeader(span) {
      RangeRoundTrip(span);
    }
  }

  /** Spellings `%d` never writes do not read as a span. */
  lemma NonCanonicalRejected()
    ensures ParseRange("bytes=05-99") == None
    ensures ParseRange("bytes=-0-5") == None
  {
    var a := "bytes=05-99";
    assert a[..6] == "bytes=";
    assert a[6..] == "05-99";
    assert FindDash("05-99", 1) == Some(2);
    assert "05-99"[..2] == "05";
    var b := "bytes=-0-5";
    assert b[..6] == "bytes=";
    assert b[6..] == "-0-5";
    assert FindDash("-0-5", 1) == Some(2);
    assert "-0-5"[..2] == "-0";
    assert "-0"[1..] == "0";
  }

  /** The header for the first hundred bytes. */
  lemma FirstHundredBytes()
    ensures RangeHeader(Span(0, 99)) == "bytes=0-99"
  {
  }

  /** The `Range` header `Download` sets: one only when a span is given,
      naming exactly that span. */
  function RangeFor(span: Option<Span>): (r: Option<string>)
    ensures r.Some? <==> span.Some?
    ensures span.Some? ==> ParseRange(r.value) == Some(span.value)
  {
    match span
    case None => None
    case Some(sp) =>
      RangeRoundTrip(sp);
      Some(RangeHeader(sp))
  }

  /** The GET `Download` sends to the node's source URL.  Statuses 200 and
      206 are both accepted whether or not a range is asked for. */
  datatype ContentRequest = ContentRequest(url: string, range: Option<string>, expected: seq<int>)

  /** The outcome of `Download`: the content request it issued, if any, and
      the node info (size replaced by the response's length) or the error. */
  datatype Fetch = Fetch(request: Option<ContentRequest>, result: Result<Node>)

  /** `Download`: `info` is the node lookup's answer, `response` the
      content response's length or the content request's error. */
  function Download(id: string, info: Result<Node>, span: Option<Span>, response: Result<int>): (r: Fetch)
    ensures r.request.None? <==> info.Err? || info.value.source == ""
    ensures info.Err? ==> r.result == Err(info.error)
    ensures info.Ok? && info.value.source == "" ==> r.result == Err(CannotDownload(id))
    ensures r.request.Some? ==>
      && r.request.value.url == info.value.source
      && r.request.value.expected == [200, 206]
      && (r.request.value.range.Some? <==> span.Some?)
      && (span.Some? ==> ParseRange(r.request.value.range.value) == Some(span.value))
    ensures r.request.Some? && response.Err? ==> r.result == Err(response.error)
    ensures r.request.Some? && response.Ok? ==>
      r.result.Ok? && r.result.value.size == response.value
      && r.result.value.(size := info.value.size) == info.value
  {
    match info
    case Err(e) => Fetch(None, Err(e))
    case Ok(node) =>
      if node.source == "" then Fetch(None, Err(CannotDownload(id)))
      else
        var request := ContentRequest(node.source, RangeFor(span), [200, 206]);
        match response
        case Err(e) => Fetch(Some(request), Err(e))
        case Ok(length) => Fetch(Some(request), Ok(node.(size := length)))
  }

  // ---------------------------------------------------------------------
  // Upload

  /** The value of the `overwrite` query parameter for a policy. */
  function OverwriteParam(overwrite: bool): (v: string)
    ensures v == "true" <==> overwrite
    ensures !overwrite ==> v == "ChooseNewName"
  {
    if overwrite then "true" else "ChooseNewName"
  }

  /** The PUT `UploadOverwrite` sends to the API origin. */
  datatype UploadRequest = UploadRequest(
    path: string,
    params: map<string, string>,
    authorization: string,
    expected: seq<int>)

  /** The request issued, if any, and the final name or the error. */
  datatype Stored = Stored(request: Option<UploadRequest>, result: Result<string>)

  /** `UploadOverwrite`: `header` is `AuthenticationHeader`'s answer and
      `response` the name the service reports, or the request's error. */
  function UploadOverwrite(header: Result<string>, dirId: string, name: string, overwrite: bool,
                           response: Result<string>): (r: Stored)
    ensures header.Err? ==> r == Stored(None, Err(header.error))
    ensures header.Ok? ==> r.request.Some? && r.result == response
    ensures r.request.Some? ==>
      var q := r.request.value;
      && q.path == "/" + dirId + "/files/" + name
      && q.params.Keys == {"overwrite"}
      && (q.params["overwrite"] == "true" <==> overwrite)
      && (!overwrite ==> q.params["overwrite"] == "ChooseNewName")
      && q.authorization == header.value
      && q.expected == [200, 201]
  {
    match header
    case Err(e) => Stored(None, Err(e))
    case Ok(h) =>
      var request := UploadRequest("/" + dirId + "/files/" + name,
                                   map["overwrite" := OverwriteParam(overwrite)], h, [200, 201]);
      match response
      case Err(e) => Stored(Some(request), Err(e))
      case Ok(newName) => Stored(Some(request), Ok(newName))
  }

  /** What `Upload` did: the request it issued, if any, and the error. */
  datatype Sent = Sent(request: Option<UploadRequest>, err: Option<Error>)

  /** `Upload`: an overwriting upload whose final name is dropped. */
  function Upload(header: Result<string>, dirId: string, name: string, response: Result<string>): (r: Sent)
    ensures r.request.Some? <==> header.Ok?
    ensures r.request.Some? ==>
      var q := r.request.value;
      && q.path == "/" + dirId + "/files/" + name
      && q.params == map["overwrite" := "true"]
      && q.authorization == header.value
      && q.expected == [200, 201]
    ensures r.err.None? <==> header.Ok? && response.Ok?
    ensures header.Err? ==> r.err == Some(header.error)
    ensures header.Ok? && response.Err? ==> r.err == Some(response.error)
  {
    var stored := UploadOverwrite(header, dirId, name, true, response);
    match stored.result
    case Err(e) => Sent(stored.request, Some(e))
    case Ok(_) => Sent(stored.request, None)
  }

  /** `Upload` sends exactly the request `UploadOverwrite` sends with
      overwriting on, and fails exactly when it does; the other policy
      differs only in asking for a new name. */
  lemma UploadOverwrites(header: Result<string>, dirId: string, name: string, response: Result<string>)
    ensures Upload(header, dirId, name, response).request == UploadOverwrite(header, dirId, name, true, response).request
    ensures Upload(header, dirId, name, response).err.None? <==> UploadOverwrite(header, dirId, name, true, response).result.Ok?
    ensures header.Ok? ==>
      var keep := UploadOverwrite(header, dirId, name, false, response).request.value;
      && keep.params == map["overwrite" := "ChooseNewName"]
      && Upload(header, dirId, name, response).request.value == keep.(params := map["overwrite" := "true"])
  {
  }
}
